=== FILE: README.md ===
# PAMR mean-reversion portfolio construction, modelled in Dafny

This project models the numeric core of two QuantConnect portfolio construction models.

- `MeanReversionPortfolioConstructionModel` rebalances by Passive-Aggressive Mean Reversion (PAMR; Li, Zhao, Hoi and Gopalkrishnan, 2012).
- `BMRPortfolioConstructionModel` is the barycenter variant. It is modelled for its tracker bookkeeping only.

Prices and weights are exact `real`s. The model is built from pure functions over immutable values.

| module | file | what it holds |
|---|---|---|
| `Outcomes` | outcomes.dfy | `Option`, `Result` and the Python exceptions the code can raise |
| `Vectors` | vectors.dfy | sums, dot products, mean, `b - step * d`, clamping `max(v - theta, 0)`, and their algebra |
| `Sorting` | sorting.dfy | descending sort (`np.sort(v)[::-1]`) as a sorted permutation |
| `Simplex` | simplex.dfy | `SimplexProjection`: the Duchi et al. algorithm and its correctness |
| `SimplexOptimality` | simplex_optimality.dfy | the projection is the nearest point of the simplex |
| `Pamr` | pamr.dfy | mean deviation, step size, candidate and projected update |
| `RollingWindow` | rolling_window.dfy | the bounded newest-first buffer the trackers use |
| `Universe` | universe.dfy | the `symbol_data` add/remove bookkeeping of `OnSecuritiesChanged` |
| `MeanReversion` | mean_reversion.dfy | the 2-slot `SymbolData`, `Prediction`, `DetermineTargetPercent`, `OnSecuritiesChanged` |
| `Barycenter` | barycenter.dfy | the BMR `SymbolData` (window of `window_size`, history backfill) and its `OnSecuritiesChanged` |

Python exceptions are modelled as `Failure` values. There are five of them:

- a `KeyError` in the readiness test for an insight whose symbol has no tracker;
- a `ZeroDivisionError` when the previous close is 0;
- an index error when reading a window past its values;
- numpy's `IndexError` when `np.where(...)[0][-1]` finds nothing;
- the error from `None.Reset()` when a removed symbol is not tracked.

When an exception is raised, no next state exists (see "## Left out" for the partial updates this drops).

Behaviour of the code that the model keeps:

- The projection finds no index `rho`, and so raises, for an empty vector and for `b <= 0`. It does not succeed for every input. `SimplexProjection` succeeds exactly when `|v| > 0 && b > 0`. The model itself always calls it with `b = 1`.
- The readiness test is all-or-nothing. An insight without a tracker raises `KeyError`; it is not skipped.
- Removing a symbol that is not tracked raises, and so does a symbol removed twice in one change.
- The BMR tracker's update handler is a lambda that `Reset` never detaches. After a reset its window refills from later updates (`Barycenter.RefillAfterReset`). The base model's `Reset` does detach `OnIdentity`.

## Model

| member | source | states |
|---|---|---|
| `Sorting.Insert` | MeanReversionPortfolioConstructionModel.py:119 | inserting into a descending sequence keeps it descending and adds exactly one occurrence of the value |
| `Sorting.SortDescending` | MeanReversionPortfolioConstructionModel.py:119 | `u` is a permutation (same multiset) of `v`, in descending order |
| `Sorting.SumClampSort` | MeanReversionPortfolioConstructionModel.py:119-125 | the total of `max(u - theta, 0)` over the sorted vector equals that over `v` |
| `Simplex.PrefixSums` | MeanReversionPortfolioConstructionModel.py:120 | component `k` of `np.cumsum(u)` is the sum of `u[0..k]` |
| `Simplex.CumSumFrom` | MeanReversionPortfolioConstructionModel.py:120 | running sums from an offset, the same prefix-sum characterisation |
| `Simplex.LastPassing` | MeanReversionPortfolioConstructionModel.py:122 | `np.where(test)[0][-1]`: the returned index passes the test and every later one fails; `None` means no index passes |
| `Simplex.SimplexProjection` | MeanReversionPortfolioConstructionModel.py:106-126 | succeeds iff `v` is non-empty and `b > 0`, otherwise `IndexError`; the result has the length of `v`, is non-negative, sums to `b`, and keeps the order of the components |
| `Simplex.ProjectionUnique` | MeanReversionPortfolioConstructionModel.py:122-126 | any threshold `t` whose clamp `max(v - t, 0)` totals `b` gives the projection, whatever route found `t` |
| `Vectors.ClampTotalDetermines` | MeanReversionPortfolioConstructionModel.py:124-125 | two clamps of the same vector with equal totals are the same vector |
| `Simplex.ThetaSplits` | MeanReversionPortfolioConstructionModel.py:122-123 | the sorted components up to `rho` lie above theta and all later ones at or below it |
| `Simplex.SortedClampTotal` | MeanReversionPortfolioConstructionModel.py:122-125 | clamping the sorted vector at theta leaves a total of exactly `b`, and `b` is positive |
| `Simplex.FirstIndexPasses` | MeanReversionPortfolioConstructionModel.py:122 | with `b > 0` the largest component passes the test, so `rho` exists |
| `Simplex.ClampTotalAtLastPassing` | MeanReversionPortfolioConstructionModel.py:119-125 | clamping the unsorted input at theta also leaves total `b` |
| `Simplex.ProjectionFacts` | MeanReversionPortfolioConstructionModel.py:119-125 | a passing index exists iff `v` is non-empty and `b > 0`, and then the clamped total is `b` |
| `Simplex.ProjectionIdempotent` | MeanReversionPortfolioConstructionModel.py:107-108 | a point already on the simplex of total `b` is its own projection |
| `Simplex.ThetaZeroOnSimplex` | MeanReversionPortfolioConstructionModel.py:123-125 | on a simplex point only theta 0 keeps the total, so nothing is subtracted |
| `Simplex.ExampleOnSimplex` | MeanReversionPortfolioConstructionModel.py:106-126 | `[0.5, 0.3, 0.2]` with `b = 1` is returned unchanged |
| `SimplexOptimality.ProjectionNearest` | MeanReversionPortfolioConstructionModel.py:107-108 | the projection is at least as close to `v` as every point of the simplex: the promised arg min |
| `SimplexOptimality.ClampNearest` | MeanReversionPortfolioConstructionModel.py:124-125 | clamping at a theta that matches the total of a non-negative `y` is at least as close to `v` as `y` |
| `SimplexOptimality.CrossNonNegative` | MeanReversionPortfolioConstructionModel.py:124-125 | the cross term `<v - w, w - y>` of the three-point identity is non-negative (optimality conditions) |
| `Vectors.CrossBound` | MeanReversionPortfolioConstructionModel.py:124-125 | the cross term is at least theta times the difference of the totals of `w` and `y` |
| `Vectors.ThreePoint` | MeanReversionPortfolioConstructionModel.py:108 | `|a - d|^2 = |a - c|^2 + |c - d|^2 + 2 <a - c, c - d>` |
| `Vectors.ClampMonotone` | MeanReversionPortfolioConstructionModel.py:124-125 | clamping yields non-negative components and keeps their order |
| `Vectors.SumClampThreshold` | MeanReversionPortfolioConstructionModel.py:123-125 | with a prefix above theta and the rest at or below it, the clamped total is the prefix total minus `k * theta`, and it is positive |
| `Vectors.ClampShrinks` | MeanReversionPortfolioConstructionModel.py:124-125 | a positive theta strictly lowers the total of a non-negative vector with positive total |
| `Vectors.ClampGrows` | MeanReversionPortfolioConstructionModel.py:124-125 | the clamped total is at least the total minus `n * theta` |
| `Vectors.UniformOnSimplex` | MeanReversionPortfolioConstructionModel.py:43 | `np.ones(m) * (1/m)` has length `m` and lies on the unit simplex |
| `Vectors.ShiftByMeanSumsToZero` | MeanReversionPortfolioConstructionModel.py:51-52 | the deviations from the mean sum to zero |
| `Vectors.SumAxpy` | MeanReversionPortfolioConstructionModel.py:63 | the total of `b - step * d` is `sum(b) - step * sum(d)` |
| `Vectors.DotAxpy` | MeanReversionPortfolioConstructionModel.py:63 | `(b - step * d) . x = b . x - step * (d . x)` |
| `Vectors.DotShift` | MeanReversionPortfolioConstructionModel.py:52 | `d . x = d . (x - c) + c * sum(d)` |
| `Vectors.SqNormNonNegative` | MeanReversionPortfolioConstructionModel.py:53 | a squared norm is never negative |
| `Vectors.SqNormOfZero` | MeanReversionPortfolioConstructionModel.py:53-55 | the zero vector has squared norm 0 |
| `Pamr.MeanDeviation` | MeanReversionPortfolioConstructionModel.py:51-52 | `x_tilde - x_bar` has one entry per relative, sums to zero, and differs from `x_tilde` by the same constant in every entry |
| `Pamr.MeanDeviationUnique` | MeanReversionPortfolioConstructionModel.py:51-52 | those facts determine it: any vector that sums to zero and differs from `x_tilde` by one shared constant is `x_tilde - x_bar` |
| `Pamr.DeviationNorm` | MeanReversionPortfolioConstructionModel.py:53 | `second_norm` is non-negative |
| `Pamr.StepSize` | MeanReversionPortfolioConstructionModel.py:55-59 | the step is never negative; it is positive exactly when the deviation is non-zero and `b_t . x` exceeds `eps`; then `step * second_norm = b_t . x - eps` |
| `Pamr.Candidate` | MeanReversionPortfolioConstructionModel.py:63 | the unprojected candidate has one weight per asset |
| `Pamr.Update` | MeanReversionPortfolioConstructionModel.py:63-66 | the new weights lie on the unit simplex, one per asset |
| `Pamr.CandidateKeepsBudget` | MeanReversionPortfolioConstructionModel.py:63 | the candidate keeps the total weight of `b_t` |
| `Pamr.DeviationDotRelatives` | MeanReversionPortfolioConstructionModel.py:51-53 | `dev . x = |dev|^2` |
| `Pamr.CandidateOnThreshold` | MeanReversionPortfolioConstructionModel.py:49-63 | aggressive case: a positive step puts the candidate's predicted return exactly at `eps` |
| `Pamr.PassiveWhenNoLoss` | MeanReversionPortfolioConstructionModel.py:55-65 | passive case: if `b_t . x <= eps` the step is 0, the candidate is `b_t`, and a simplex `b_t` is returned unchanged |
| `Pamr.ZeroStepKeepsWeights` | MeanReversionPortfolioConstructionModel.py:63-65 | with step 0 the candidate is `b_t`, and its projection is `b_t` when `b_t` is on the simplex |
| `Pamr.FlatRelativesKeepWeights` | MeanReversionPortfolioConstructionModel.py:51-63 | equal relatives give `second_norm = 0`, step 0, and candidate `b_t` |
| `Pamr.UpdateIsNearest` | MeanReversionPortfolioConstructionModel.py:63-66 | the new weights are the simplex point nearest the candidate |
| `Pamr.ExampleAggressiveStep` | MeanReversionPortfolioConstructionModel.py:51-65 | `b_t = [0.5, 0.5]`, `x = [1.2, 0.8]`, `eps = 0.9`: step 1.25, weights `[0.25, 0.75]` |
| `Pamr.ExamplePassiveStep` | MeanReversionPortfolioConstructionModel.py:51-65 | the same inputs with `eps = 1`: step 0, weights stay `[0.5, 0.5]` |
| `RollingWindow.Empty` | MeanReversionPortfolioConstructionModel.py:133 | a new window of the given capacity holds no values |
| `RollingWindow.Add` | MeanReversionPortfolioConstructionModel.py:141 | the new value is at index 0, older values move up one place, and the length is capped at the capacity |
| `RollingWindow.AddAll` | BMRPortfolioConstructionModel.py:66-67 | adding a series keeps the window valid and its capacity unchanged |
| `RollingWindow.AddAllContents` | BMRPortfolioConstructionModel.py:65-67 | after adding `xs` the window holds the newest `min(held + |xs|, size)` values, newest first |
| `RollingWindow.ReadyAfterFill` | BMRPortfolioConstructionModel.py:62-67 | an empty window filled with `xs` is ready iff `|xs| >= size` |
| `RollingWindow.Reset` | BMRPortfolioConstructionModel.py:74 | reset keeps the capacity, empties the window, and leaves it not ready |
| `RollingWindow.Get` | MeanReversionPortfolioConstructionModel.py:101-102 | reading index `i` succeeds iff the window holds more than `i` values, and then yields the value stored at `i` |
| `RollingWindow.GetAfterAdd` | MeanReversionPortfolioConstructionModel.py:101-102 | after an add, index 0 reads the new value and index `i + 1` reads the old index `i` |
| `Universe.RemoveAll` | BMRPortfolioConstructionModel.py:31-33 | succeeds iff the removed symbols are distinct and all tracked; their entries are gone and the others are unchanged |
| `Universe.AddMissing` | BMRPortfolioConstructionModel.py:36-40 | every added symbol gets an entry, existing entries are not replaced, and new ones are freshly created |
| `Universe.OnSecuritiesChanged` | BMRPortfolioConstructionModel.py:24-40 | removals then additions: the success condition, the resulting key set, re-creation of re-added symbols, and untouched entries left unchanged |
| `Universe.AddMissingIdempotent` | BMRPortfolioConstructionModel.py:38-40 | adding the same securities again changes nothing |
| `Universe.RemoveUndoesAdd` | BMRPortfolioConstructionModel.py:31-40 | removing freshly added securities restores the previous map |
| `MeanReversion.NewSymbolData` | MeanReversionPortfolioConstructionModel.py:129-138 | a new tracker listens for updates and its 2-slot window holds the newest `min(n, 2)` warm-up values, newest first |
| `MeanReversion.OnIdentity` | MeanReversionPortfolioConstructionModel.py:140-141 | a listening tracker stores the value at index 0 and shifts older ones; a detached tracker is unchanged |
| `MeanReversion.ResetData` | MeanReversionPortfolioConstructionModel.py:143-146 | reset detaches the handler, empties the window, and leaves the tracker not ready |
| `MeanReversion.ReadyAfterWarmUp` | MeanReversionPortfolioConstructionModel.py:133-138 | a new tracker is ready iff the warm-up delivered at least two values |
| `MeanReversion.ReadyAfterTwoUpdates` | MeanReversionPortfolioConstructionModel.py:140-150 | two updates make a listening tracker ready, holding them newest first |
| `MeanReversion.DetachedStaysEmpty` | MeanReversionPortfolioConstructionModel.py:143-146 | after reset, updates no longer reach the window |
| `MeanReversion.Init` | MeanReversionPortfolioConstructionModel.py:18-24 | the initial state has `m = 0`, no trackers and the given `eps` |
| `MeanReversion.Relative` | MeanReversionPortfolioConstructionModel.py:97-102 | `1 + Magnitude` when given; otherwise `window[0] / window[1]`, failing with `KeyError`, an index error or `ZeroDivisionError` exactly when those arise |
| `MeanReversion.ExampleLastRatio` | MeanReversionPortfolioConstructionModel.py:101-102 | closes 100 then 110 give the relative 1.1 |
| `MeanReversion.Prediction` | MeanReversionPortfolioConstructionModel.py:92-104 | one relative per insight in insight order; it fails iff some insight's relative fails, with the error of the first such insight |
| `MeanReversion.FirstUntracked` | MeanReversionPortfolioConstructionModel.py:36 | finds the first insight whose symbol has no tracker, iff there is one |
| `MeanReversion.GateOpen` | MeanReversionPortfolioConstructionModel.py:36-37 | open iff there are insights and every one has a ready tracker; `KeyError` iff there are insights and one is untracked, carrying the first untracked symbol |
| `MeanReversion.StartWeights` | MeanReversionPortfolioConstructionModel.py:39-43 | uniform `1/m` weights (on the unit simplex) when the number of insights differs from the stored `m`, else the stored `b_t` |
| `MeanReversion.Targets` | MeanReversionPortfolioConstructionModel.py:68-69 | target `i` pairs insight `i` with weight `i` |
| `MeanReversion.DetermineTargetPercent` | MeanReversionPortfolioConstructionModel.py:26-71 | a closed gate gives no targets and an unchanged state; a `KeyError` propagates; an open gate fails exactly when the prediction fails, with its error; otherwise the new `m` is the insight count, the new `b_t` is the PAMR update, the weights are on the simplex, the targets carry them in insight order, and the state stays valid |
| `MeanReversion.PredictionAfterGate` | MeanReversionPortfolioConstructionModel.py:36-46 | past the gate the prediction fails only with `ZeroDivisionError`, exactly when a magnitude-less insight's previous close is 0 |
| `MeanReversion.NotReadyLeavesState` | MeanReversionPortfolioConstructionModel.py:36-37 | one tracked but not-ready symbol yields no targets and leaves the state unchanged |
| `MeanReversion.DimensionChangeResets` | MeanReversionPortfolioConstructionModel.py:39-66 | after a change of `m` the new weights are the PAMR update of the uniform weights, whatever `b_t` was; they stay uniform when those already meet the threshold |
| `MeanReversion.SameDimensionUpdates` | MeanReversionPortfolioConstructionModel.py:39-69 | with the number of insights unchanged, the new `b_t` is the PAMR update of the stored `b_t`, nothing else in the state changes, and the targets carry the new weights in insight order |
| `MeanReversion.SameDimensionContinues` | MeanReversionPortfolioConstructionModel.py:39-43 | after a rebalance, the same number of insights continues from the stored weights, which are on the simplex |
| `MeanReversion.ExampleRebalance` | MeanReversionPortfolioConstructionModel.py:26-71 | two ready symbols with magnitudes 0.2 and -0.2, `eps = 0.9`, `b_t = [0.5, 0.5]` give targets 0.25 and 0.75 |
| `MeanReversion.ExampleInputs` | MeanReversionPortfolioConstructionModel.py:36-46 | in that example the gate is open, the relatives are `[1.2, 0.8]`, and the stored weights are used |
| `MeanReversion.OnSecuritiesChanged` | MeanReversionPortfolioConstructionModel.py:73-90 | fails exactly when a removed symbol is untracked or repeated; the tracked symbols become the old ones minus the removed plus the added, trackers neither removed nor added are kept, new ones are warmed up, and `m`, `b_t` and `eps` are untouched |
| `Barycenter.NewSymbolData` | BMRPortfolioConstructionModel.py:58-67 | the window has `window_size` slots and holds the newest `min(|history|, window_size)` history closes, newest first |
| `Barycenter.OnUpdate` | BMRPortfolioConstructionModel.py:70 | each update becomes index 0 of the window, older closes move up one place, and the length is capped at its capacity |
| `Barycenter.ResetData` | BMRPortfolioConstructionModel.py:72-74 | reset empties the window and the tracker is not ready |
| `Barycenter.ReadyAfterBackfill` | BMRPortfolioConstructionModel.py:62-67 | a new tracker is ready iff the indicator is ready and history filled the window |
| `Barycenter.ReadyAfterOneUpdate` | BMRPortfolioConstructionModel.py:65-78 | one further close makes it ready iff history was at most one close short |
| `Barycenter.OnUpdates` | BMRPortfolioConstructionModel.py:70 | after the handler runs on a sequence of closes, the window holds the newest ones it can, the last close first, then the closes it held before |
| `Barycenter.RefillAfterReset` | BMRPortfolioConstructionModel.py:70-74 | after reset, `window_size` handler calls fill the window again, newest first, so readiness rests on the indicator alone |
| `Barycenter.OnSecuritiesChanged` | BMRPortfolioConstructionModel.py:24-40 | the same bookkeeping: the same failure condition and resulting key set, kept trackers unchanged, and new trackers of `window_size` slots backfilled from history |

## Left out

- The partial state an exception leaves behind is not modelled: a `Failure` has no next state. `DetermineTargetPercent` already stores the new `m` and uniform `b_t` (MeanReversionPortfolioConstructionModel.py:40-43) before `Prediction` can raise (lines 97-102). The removal loops have already popped the earlier removed symbols when a later `None.Reset()` raises (MeanReversionPortfolioConstructionModel.py:81-83, BMRPortfolioConstructionModel.py:31-33). The host stops the algorithm on an exception, so that state is never read again.
- The barycenter `Prediction` (BMRPortfolioConstructionModel.py:42-55) is not modelled. It needs natural logarithms, pandas mean and standard deviation, inf/NaN replacement and `tslearn`'s DTW barycenter averaging, which are floating-point and library code.
- `np.random.seed(0)` is not modelled. It only seeds that library.
- Floating point is not modelled. Arithmetic is exact over `real`, and `second_norm` is a sum of squares with no square root. `second_norm == 0.0` therefore means an exactly zero deviation, and overflow to inf/NaN does not arise.
- QuantConnect host code is out of scope:
  - the `Identity` indicator, `WarmUpIndicator`, `History` and `Updated` event wiring;
  - `super().OnSecuritiesChanged`;
  - the base class that turns targets into orders.
- History and warm-up closes enter as parameters (`warmUp`, `history`), and so does the identity indicator's readiness (`identityReady`). `RollingWindow` is modelled as a bounded newest-first buffer whose capacity is at least 1.
- Resetting a removed tracker has no visible effect, because the popped tracker is discarded. `Universe` therefore models only the failure of `None.Reset()`.
- The targets dictionary is keyed by insight objects. It is modelled as a sequence in insight order.
- main.py and ResearchETFUniverse.py are not part of this model. They hold configuration, CSV reading and subscription.
- `Vectors.SqNormOfZero`: only "zero deviation gives `second_norm = 0`" is proved, not the converse. `Pamr.StepSize` is stated in terms of `second_norm` itself, so nothing depends on the converse.

=== FILE: barycenter.dfy ===
/** The tracker bookkeeping of `BMRPortfolioConstructionModel`, mean reversion towards a
    barycenter: each symbol keeps a window of `window_size` closes, backfilled from history
    when the tracker is created and fed by the identity indicator afterwards, and the
    `symbol_data` map follows the universe as in the base model. */
module Barycenter {
  import opened Outcomes
  import RW = RollingWindow
  import Universe

  /** `SymbolData(algo, symbol, window_size, resolution)`: only the window is state the
      model can see; the identity indicator belongs to the host, and its readiness is
      passed to `IsReady` as `identityReady`. */
  datatype SymbolData = SymbolData(window: RW.Window)

  predicate ValidData(sd: SymbolData, windowSize: nat)
  {
    RW.Valid(sd.window) && sd.window.size == windowSize
  }

  /** Creation: a window of `windowSize` slots filled with the `history` closes, oldest
      first, so that it keeps the newest `windowSize` of them, newest at index 0. */
  function NewSymbolData(windowSize: nat, history: seq<real>): (sd: SymbolData)
    requires windowSize >= 1
    ensures ValidData(sd, windowSize)
    ensures |sd.window.items| == RW.Min(|history|, windowSize)
    ensures forall i :: 0 <= i < |sd.window.items| ==> sd.window.items[i] == history[|history| - 1 - i]
  {
    var w := RW.AddAll(RW.Empty(windowSize), history);
    RW.AddAllContents(RW.Empty(windowSize), history);
    SymbolData(w)
  }

  /** The indicator's update handler: every value is added to the window.  Unlike the base
      model's tracker it is never detached, not even by `Reset`. */
  function OnUpdate(sd: SymbolData, value: real): (r: SymbolData)
    requires RW.Valid(sd.window)
    ensures RW.Valid(r.window) && r.window.size == sd.window.size
    ensures |r.window.items| == RW.Min(|sd.window.items| + 1, sd.window.size)
    ensures r.window.items[0] == value
    ensures forall i :: 0 < i < |r.window.items| ==> r.window.items[i] == sd.window.items[i - 1]
  {
    SymbolData(RW.Add(sd.window, value))
  }

  /** `SymbolData.Reset`: the window is emptied (the indicator is reset by the host). */
  function ResetData(sd: SymbolData, identityReady: bool): (r: SymbolData)
    requires RW.Valid(sd.window)
    ensures RW.Valid(r.window) && r.window.size == sd.window.size && |r.window.items| == 0
    ensures !IsReady(r, identityReady)
  {
    SymbolData(RW.Reset(sd.window))
  }

  /** `SymbolData.IsReady`: the identity indicator is ready and the window is full. */
  predicate IsReady(sd: SymbolData, identityReady: bool)
  {
    identityReady && RW.IsReady(sd.window)
  }

  /** A new tracker is ready exactly when the indicator is and history supplied a full
      window. */
  lemma ReadyAfterBackfill(windowSize: nat, history: seq<real>, identityReady: bool)
    requires windowSize >= 1
    ensures IsReady(NewSymbolData(windowSize, history), identityReady) <==>
              identityReady && |history| >= windowSize
  {
  }

  /** One further close completes the window exactly when history fell at most one short. */
  lemma ReadyAfterOneUpdate(windowSize: nat, history: seq<real>, value: real, identityReady: bool)
    requires windowSize >= 1
    ensures IsReady(OnUpdate(NewSymbolData(windowSize, history), value), identityReady) <==>
              identityReady && |history| + 1 >= windowSize
  {
  }

  /** The handler run once per value of `values`, oldest first: the window holds the
      newest values it can, the last of `values` first and the closes it held before after
      them. */
  function OnUpdates(sd: SymbolData, values: seq<real>): (r: SymbolData)
    requires RW.Valid(sd.window)
    ensures RW.Valid(r.window) && r.window.size == sd.window.size
    ensures |r.window.items| == RW.Min(|sd.window.items| + |values|, sd.window.size)
    ensures forall i :: 0 <= i < |r.window.items| ==>
              r.window.items[i] == if i < |values| then values[|values| - 1 - i] else sd.window.items[i - |values|]
    decreases |values|
  {
    if |values| == 0 then sd
    else
      var init := values[..|values| - 1];
      var r := OnUpdate(OnUpdates(sd, init), values[|values| - 1]);
      r
  }

  /** The handler stays attached through `Reset`: after a reset, `window_size` further
      updates fill the window again, newest first. */
  lemma RefillAfterReset(sd: SymbolData, identityReady: bool, values: seq<real>)
    requires RW.Valid(sd.window) && |values| >= sd.window.size
    ensures var r := OnUpdates(ResetData(sd, identityReady), values);
            && IsReady(r, identityReady) == identityReady
            && forall i :: 0 <= i < |r.window.items| ==> r.window.items[i] == values[|values| - 1 - i]
  {
  }

  /** `OnSecuritiesChanged`: the same bookkeeping as the base model, with trackers of
      `windowSize` slots backfilled from `history(symbol)`.  This override does not call
      the base class's handler. */
  function OnSecuritiesChanged(data: map<string, SymbolData>, windowSize: nat,
                               removed: seq<string>, added: seq<string>,
                               history: string -> seq<real>): (r: Result<map<string, SymbolData>>)
    requires windowSize >= 1
    requires forall k :: k in data ==> ValidData(data[k], windowSize)
    ensures r.Success? <==> Universe.Distinct(removed) && forall i :: 0 <= i < |removed| ==> removed[i] in data
    ensures r.Success? ==> forall k :: k in r.value ==> ValidData(r.value[k], windowSize)
    ensures r.Success? ==>
              r.value.Keys == (data.Keys - set i | 0 <= i < |removed| :: removed[i]) + (set i | 0 <= i < |added| :: added[i])
    ensures r.Success? ==> forall i :: 0 <= i < |added| ==> added[i] in r.value
    ensures r.Success? ==> forall i :: 0 <= i < |removed| && removed[i] !in added ==> removed[i] !in r.value
    ensures r.Success? ==> forall k :: k in data && k !in removed ==> k in r.value && r.value[k] == data[k]
    ensures r.Success? ==> forall k :: k in r.value && (k !in data || k in removed) ==>
              r.value[k] == NewSymbolData(windowSize, history(k))
  {
    var make := (symbol: string) => NewSymbolData(windowSize, history(symbol));
    Universe.OnSecuritiesChanged(data, removed, added, make)
  }
}

=== FILE: mean_reversion.dfy ===
/** `MeanReversionPortfolioConstructionModel`: the controller state `(eps, m, b_t,
    symbol_data)`, the per-symbol tracker of the last two closes, the last-ratio prediction,
    and `DetermineTargetPercent`, which gates on readiness, resets the weights when the
    number of insights changes, applies the PAMR update and reports one target per
    insight.  Every operation is a pure transition from one state to the next; a Python
    exception is a `Failure` and leaves no next state. */
module MeanReversion {
  import opened Outcomes
  import opened Vectors
  import RW = RollingWindow
  import Universe
  import opened Pamr

  /* ---------------------------------------------------------------------------------- */
  /* SymbolData: a two-slot window fed by the symbol's identity indicator.              */

  /** `listening` is whether `OnIdentity` is still attached to the indicator's `Updated`
      event; `Reset` detaches it. */
  datatype SymbolData = SymbolData(listening: bool, window: RW.Window)

  const WindowSize: nat := 2

  predicate ValidData(sd: SymbolData)
  {
    RW.Valid(sd.window) && sd.window.size == WindowSize
  }

  /** `SymbolData(algo, symbol, resolution)`: the handler is attached before the indicator
      is warmed up, so the warm-up values (oldest first) already pass into the window. */
  function NewSymbolData(warmUp: seq<real>): (sd: SymbolData)
    ensures ValidData(sd) && sd.listening
    ensures |sd.window.items| == RW.Min(|warmUp|, WindowSize)
    ensures forall i :: 0 <= i < |sd.window.items| ==> sd.window.items[i] == warmUp[|warmUp| - 1 - i]
  {
    RW.AddAllContents(RW.Empty(WindowSize), warmUp);
    SymbolData(true, RW.AddAll(RW.Empty(WindowSize), warmUp))
  }

  /** One `Updated` event of the identity indicator carrying `value`. */
  function OnIdentity(sd: SymbolData, value: real): (r: SymbolData)
    requires ValidData(sd)
    ensures ValidData(r) && r.listening == sd.listening
    ensures sd.listening ==> |r.window.items| == RW.Min(|sd.window.items| + 1, WindowSize)
    ensures sd.listening ==> r.window.items[0] == value
    ensures sd.listening ==> forall i :: 0 < i < |r.window.items| ==> r.window.items[i] == sd.window.items[i - 1]
    ensures !sd.listening ==> r == sd
  {
    if sd.listening then sd.(window := RW.Add(sd.window, value)) else sd
  }

  /** `SymbolData.Reset`: detach the handler and empty the window. */
  function ResetData(sd: SymbolData): (r: SymbolData)
    requires ValidData(sd)
    ensures ValidData(r) && !r.listening && |r.window.items| == 0
    ensures !IsReady(r)
  {
    SymbolData(false, RW.Reset(sd.window))
  }

  /** `SymbolData.IsReady`: the window holds two closes. */
  predicate IsReady(sd: SymbolData)
  {
    RW.IsReady(sd.window)
  }

  /** A fresh tracker is ready once two values have reached it, whether in the warm-up or
      through later updates; a detached tracker never fills again. */
  lemma ReadyAfterWarmUp(warmUp: seq<real>)
    ensures IsReady(NewSymbolData(warmUp)) <==> |warmUp| >= 2
  {
    RW.ReadyAfterFill(WindowSize, warmUp);
  }

  lemma ReadyAfterTwoUpdates(sd: SymbolData, p: real, q: real)
    requires ValidData(sd) && sd.listening
    ensures IsReady(OnIdentity(OnIdentity(sd, p), q))
    ensures OnIdentity(OnIdentity(sd, p), q).window.items == [q, p]
  {
  }

  lemma DetachedStaysEmpty(sd: SymbolData, p: real)
    requires ValidData(sd)
    ensures OnIdentity(ResetData(sd), p) == ResetData(sd)
    ensures !IsReady(OnIdentity(ResetData(sd), p))
  {
  }

  /* ---------------------------------------------------------------------------------- */
  /* Insights, state and prediction.                                                     */

  /** The parts of an insight the model reads: its symbol and optional magnitude. */
  datatype Insight = Insight(symbol: string, magnitude: Option<real>)

  /** One entry of the returned `targets` dictionary. */
  datatype Target = Target(insight: Insight, weight: real)

  /** `self.eps`, `self.m`, `self.b_t` and `self.symbol_data`.  Before the first rebalance
      `m` is 0 and `b_t` has not been set; the empty vector stands for it. */
  datatype State = State(eps: real, m: nat, bt: seq<real>, symbolData: map<string, SymbolData>)

  predicate Valid(s: State)
  {
    && |s.bt| == s.m
    && forall k :: k in s.symbolData ==> ValidData(s.symbolData[k])
  }

  /** `__init__(eps)`. */
  function Init(eps: real): (s: State)
    ensures Valid(s) && s.m == 0 && s.eps == eps && s.symbolData == map[]
  {
    State(eps, 0, [], map[])
  }

  /** The predicted price relative of one insight: `1 + Magnitude` when a magnitude is
      given, else the newest close over the one before it, `window[0] / window[1]`. */
  function Relative(insight: Insight, data: map<string, SymbolData>): (r: Result<real>)
    ensures insight.magnitude.Some? ==> r == Success(1.0 + insight.magnitude.value)
    ensures insight.magnitude.None? && insight.symbol !in data ==> r == Failure(KeyError(insight.symbol))
    ensures insight.magnitude.None? && insight.symbol in data ==>
              var items := data[insight.symbol].window.items;
              && (r.Success? <==> |items| >= 2 && items[1] != 0.0)
              && (r.Success? ==> r.value * items[1] == items[0])
              && (r.Failure? && |items| >= 2 ==> r.error == ZeroDivisionError(insight.symbol))
              && (|items| < 2 ==> r == Failure(WindowIndexError(insight.symbol)))
  {
    match insight.magnitude
    case Some(magnitude) => Success(1.0 + magnitude)
    case None =>
      if insight.symbol !in data then
        Failure(KeyError(insight.symbol))
      else
        var window := data[insight.symbol].window;
        match (RW.Get(window, 0, insight.symbol), RW.Get(window, 1, insight.symbol))
        case (Success(newest), Success(previous)) =>
          if previous == 0.0 then Failure(ZeroDivisionError(insight.symbol))
          else Success(newest / previous)
        case (Failure(e), _) => Failure(e)
        case (_, Failure(e)) => Failure(e)
  }

  /** A window holding 110 (newest) and 100 gives the relative 1.1. */
  lemma ExampleLastRatio(data: map<string, SymbolData>)
    requires "SPY" in data && data["SPY"].window.items == [110.0, 100.0]
    ensures Relative(Insight("SPY", None), data) == Success(1.1)
  {
  }

  /** `Prediction(insights)`: the relatives in insight order; the first insight whose
      relative cannot be computed raises. */
  function Prediction(insights: seq<Insight>, data: map<string, SymbolData>): (r: Result<seq<real>>)
    ensures r.Success? <==> forall i :: 0 <= i < |insights| ==> Relative(insights[i], data).Success?
    ensures r.Success? ==> |r.value| == |insights|
    ensures r.Success? ==> forall i :: 0 <= i < |insights| ==> r.value[i] == Relative(insights[i], data).value
    ensures r.Failure? ==>
              exists i :: (&& 0 <= i < |insights|
                           && Relative(insights[i], data) == Failure(r.error)
                           && forall j :: 0 <= j < i ==> Relative(insights[j], data).Success?)
  {
    if |insights| == 0 then
      Success([])
    else
      match Relative(insights[0], data)
      case Failure(e) => Failure(e)
      case Success(x) =>
        var rest := Prediction(insights[1..], data);
        assert forall i :: 0 < i < |insights| ==> insights[i] == insights[1..][i - 1];
        match rest
        case Failure(e) => Failure(e)
        case Success(xs) => Success([x] + xs)
  }

  /** The readiness test of line 36.  `symbol_data[x.Symbol]` is looked up for every
      insight before `all` runs, so an untracked symbol raises a `KeyError` even when an
      earlier tracker is not ready; no insights at all short-circuit before any lookup. */
  function GateOpen(insights: seq<Insight>, data: map<string, SymbolData>): (r: Result<bool>)
    ensures r == Success(true) <==>
              |insights| > 0 && forall i :: 0 <= i < |insights| ==> insights[i].symbol in data && IsReady(data[insights[i].symbol])
    ensures r.Failure? <==> |insights| > 0 && exists i :: 0 <= i < |insights| && insights[i].symbol !in data
    ensures r.Failure? ==>
              exists i :: (&& 0 <= i < |insights|
                           && r.error == KeyError(insights[i].symbol) && insights[i].symbol !in data
                           && forall j :: 0 <= j < i ==> insights[j].symbol in data)
  {
    if |insights| == 0 then Success(false)
    else
      match FirstUntracked(insights, data)
      case Some(symbol) => Failure(KeyError(symbol))
      case None => Success(forall i :: 0 <= i < |insights| ==> IsReady(data[insights[i].symbol]))
  }

  /** The symbol of the first insight with no tracker. */
  function FirstUntracked(insights: seq<Insight>, data: map<string, SymbolData>): (r: Option<string>)
    ensures r.None? <==> forall i :: 0 <= i < |insights| ==> insights[i].symbol in data
    ensures r.Some? ==>
              exists i :: (&& 0 <= i < |insights|
                           && insights[i].symbol == r.value && r.value !in data
                           && forall j :: 0 <= j < i ==> insights[j].symbol in data)
  {
    if |insights| == 0 then None
    else if insights[0].symbol !in data then Some(insights[0].symbol)
    else
      var rest := FirstUntracked(insights[1..], data);
      assert forall i :: 0 < i < |insights| ==> insights[i] == insights[1..][i - 1];
      rest
  }

  /** The weights the update starts from: uniform `1/m` when the number of insights
      differs from the stored `m`, else the stored `b_t`. */
  function StartWeights(s: State, m: nat): (bt: seq<real>)
    requires Valid(s) && m > 0
    ensures |bt| == m
    ensures m != s.m ==> bt == Uniform(m) && OnSimplex(bt, 1.0)
    ensures m == s.m ==> bt == s.bt
    ensures OnSimplex(s.bt, 1.0) ==> OnSimplex(bt, 1.0)
  {
    if m != s.m then
      UniformOnSimplex(m);
      Uniform(m)
    else
      s.bt
  }

  function Targets(insights: seq<Insight>, weights: seq<real>): (t: seq<Target>)
    requires |weights| == |insights|
    ensures |t| == |insights|
    ensures forall i :: 0 <= i < |t| ==> t[i].insight == insights[i] && t[i].weight == weights[i]
  {
    seq(|insights|, i requires 0 <= i < |insights| => Target(insights[i], weights[i]))
  }

  datatype Rebalance = Rebalance(state: State, targets: seq<Target>)

  /** `DetermineTargetPercent(activeInsights)`. */
  function DetermineTargetPercent(s: State, insights: seq<Insight>): (r: Result<Rebalance>)
    requires Valid(s)
    ensures GateOpen(insights, s.symbolData) == Success(false) ==> r == Success(Rebalance(s, []))
    ensures GateOpen(insights, s.symbolData).Failure? ==> r == Failure(GateOpen(insights, s.symbolData).error)
    ensures GateOpen(insights, s.symbolData) == Success(true) ==>
              (r.Success? <==> Prediction(insights, s.symbolData).Success?)
    ensures GateOpen(insights, s.symbolData) == Success(true) && Prediction(insights, s.symbolData).Failure? ==>
              r == Failure(Prediction(insights, s.symbolData).error)
    ensures GateOpen(insights, s.symbolData) == Success(true) && r.Success? ==>
              var next := r.value.state;
              && Prediction(insights, s.symbolData).Success?
              && next.m == |insights|
              && next.bt == Update(StartWeights(s, |insights|), Prediction(insights, s.symbolData).value, s.eps)
              && OnSimplex(next.bt, 1.0)
              && next.eps == s.eps && next.symbolData == s.symbolData
              && r.value.targets == Targets(insights, next.bt)
    ensures r.Success? ==> Valid(r.value.state)
  {
    match GateOpen(insights, s.symbolData)
    case Failure(e) => Failure(e)
    case Success(open) =>
      if !open then
        Success(Rebalance(s, []))
      else
        var m := |insights|;
        var bt := StartWeights(s, m);
        match Prediction(insights, s.symbolData)
        case Failure(e) => Failure(e)
        case Success(x) =>
          var next := Update(bt, x, s.eps);
          Success(Rebalance(s.(m := m, bt := next), Targets(insights, next)))
  }

  /** `OnSecuritiesChanged`: the `symbol_data` bookkeeping, with `warmUp(symbol)` the
      values the indicator's warm-up delivers to a newly created tracker.  `m`, `b_t`
      and `eps` are not touched. */
  function OnSecuritiesChanged(s: State, removed: seq<string>, added: seq<string>,
                               warmUp: string -> seq<real>): (r: Result<State>)
    requires Valid(s)
    ensures r.Success? <==> Universe.Distinct(removed) && forall i :: 0 <= i < |removed| ==> removed[i] in s.symbolData
    ensures r.Success? ==> Valid(r.value) && r.value.m == s.m && r.value.bt == s.bt && r.value.eps == s.eps
    ensures r.Success? ==>
              r.value.symbolData.Keys ==
                (s.symbolData.Keys - set i | 0 <= i < |removed| :: removed[i]) + (set i | 0 <= i < |added| :: added[i])
    ensures r.Success? ==> forall i :: 0 <= i < |added| ==> added[i] in r.value.symbolData
    ensures r.Success? ==> forall i :: 0 <= i < |removed| && removed[i] !in added ==> removed[i] !in r.value.symbolData
    ensures r.Success? ==> forall k :: k in s.symbolData && k !in removed ==> k in r.value.symbolData && r.value.symbolData[k] == s.symbolData[k]
    ensures r.Success? ==> forall k :: k in r.value.symbolData && (k !in s.symbolData || k in removed) ==>
              r.value.symbolData[k] == NewSymbolData(warmUp(k))
  {
    var make := (symbol: string) => NewSymbolData(warmUp(symbol));
    match Universe.OnSecuritiesChanged(s.symbolData, removed, added, make)
    case Failure(e) => Failure(e)
    case Success(data) =>
      assert forall k :: k in data ==> ValidData(data[k]);
      Success(s.(symbolData := data))
  }

  /* ---------------------------------------------------------------------------------- */
  /* Properties of a rebalance.                                                          */

  /** Once the gate is open every tracker holds two closes, so the only way the
      prediction can still fail is a previous close of zero. */
  lemma {:induction false} PredictionAfterGate(s: State, insights: seq<Insight>)
    requires Valid(s)
    requires GateOpen(insights, s.symbolData) == Success(true)
    ensures Prediction(insights, s.symbolData).Success? <==>
              forall i :: 0 <= i < |insights| && insights[i].magnitude.None? ==>
                s.symbolData[insights[i].symbol].window.items[1] != 0.0
    ensures Prediction(insights, s.symbolData).Failure? ==>
              Prediction(insights, s.symbolData).error.ZeroDivisionError?
  {
    var data := s.symbolData;
    forall i | 0 <= i < |insights|
      ensures |data[insights[i].symbol].window.items| == 2
    {
      assert ValidData(data[insights[i].symbol]);
    }
  }

  /** A tracker that exists but is not ready closes the gate: no targets, and the state is
      left exactly as it was. */
  lemma {:induction false} NotReadyLeavesState(s: State, insights: seq<Insight>, j: nat)
    requires Valid(s)
    requires forall i :: 0 <= i < |insights| ==> insights[i].symbol in s.symbolData
    requires j < |insights| && !IsReady(s.symbolData[insights[j].symbol])
    ensures DetermineTargetPercent(s, insights) == Success(Rebalance(s, []))
  {
    assert GateOpen(insights, s.symbolData) != Success(true);
  }

  /** When the number of insights changes, the update starts again from uniform weights,
      whatever the stored `b_t` was; if that portfolio already meets the threshold, the
      new weights are the uniform ones. */
  lemma {:induction false} DimensionChangeResets(s: State, insights: seq<Insight>)
    requires Valid(s) && |insights| > 0 && |insights| != s.m
    requires GateOpen(insights, s.symbolData) == Success(true)
    requires Prediction(insights, s.symbolData).Success?
    ensures DetermineTargetPercent(s, insights).Success?
    ensures DetermineTargetPercent(s, insights).value.state.bt ==
              Update(Uniform(|insights|), Prediction(insights, s.symbolData).value, s.eps)
    ensures Dot(Uniform(|insights|), Prediction(insights, s.symbolData).value) <= s.eps ==>
              DetermineTargetPercent(s, insights).value.state.bt == Uniform(|insights|)
  {
    var m := |insights|;
    var x := Prediction(insights, s.symbolData).value;
    UniformOnSimplex(m);
    if Dot(Uniform(m), x) <= s.eps {
      PassiveWhenNoLoss(Uniform(m), x, s.eps);
    }
  }

  /** With the number of insights unchanged, the update continues from the stored `b_t`:
      the new weights are its PAMR update and the targets report them in insight order. */
  lemma {:induction false} SameDimensionUpdates(s: State, insights: seq<Insight>)
    requires Valid(s) && |insights| == s.m
    requires GateOpen(insights, s.symbolData) == Success(true)
    requires Prediction(insights, s.symbolData).Success?
    ensures DetermineTargetPercent(s, insights).Success?
    ensures var next := Update(s.bt, Prediction(insights, s.symbolData).value, s.eps);
            && DetermineTargetPercent(s, insights).value.state == s.(bt := next)
            && DetermineTargetPercent(s, insights).value.targets == Targets(insights, next)
  {
  }

  /** With an unchanged number of insights the update continues from the stored weights,
      which after any rebalance lie on the unit simplex. */
  lemma {:induction false} SameDimensionContinues(s: State, insights: seq<Insight>, later: seq<Insight>)
    requires Valid(s)
    requires GateOpen(insights, s.symbolData) == Success(true)
    requires DetermineTargetPercent(s, insights).Success?
    requires |later| == |insights|
    ensures var next := DetermineTargetPercent(s, insights).value.state;
            && StartWeights(next, |later|) == next.bt
            && OnSimplex(StartWeights(next, |later|), 1.0)
  {
  }

  /** The worked example end to end: two ready symbols, equal stored weights, insights
      with magnitudes 0.2 and -0.2 and `eps = 0.9` give targets 0.25 and 0.75. */
  lemma {:induction false} ExampleRebalance(s: State)
    requires Valid(s) && s.eps == 0.9 && s.m == 2 && s.bt == [0.5, 0.5]
    requires "SPY" in s.symbolData && "TLT" in s.symbolData
    requires IsReady(s.symbolData["SPY"]) && IsReady(s.symbolData["TLT"])
    ensures var insights := [Insight("SPY", Some(0.2)), Insight("TLT", Some(-0.2))];
            && DetermineTargetPercent(s, insights).Success?
            && DetermineTargetPercent(s, insights).value.targets ==
                 [Target(insights[0], 0.25), Target(insights[1], 0.75)]
  {
    var insights := [Insight("SPY", Some(0.2)), Insight("TLT", Some(-0.2))];
    ExampleInputs(s, insights);
    ExampleAggressiveStep();
    var r := DetermineTargetPercent(s, insights);
    assert r.value.state.bt == [0.25, 0.75];
  }

  lemma {:induction false} ExampleInputs(s: State, insights: seq<Insight>)
    requires Valid(s) && s.m == 2 && s.bt == [0.5, 0.5]
    requires insights == [Insight("SPY", Some(0.2)), Insight("TLT", Some(-0.2))]
    requires "SPY" in s.symbolData && "TLT" in s.symbolData
    requires IsReady(s.symbolData["SPY"]) && IsReady(s.symbolData["TLT"])
    ensures GateOpen(insights, s.symbolData) == Success(true)
    ensures Prediction(insights, s.symbolData) == Success([1.2, 0.8])
    ensures StartWeights(s, 2) == [0.5, 0.5]
  {
    var data := s.symbolData;
    var tail := [Insight("TLT", Some(-0.2))];
    assert insights[1..] == tail && tail[1..] == [];
    assert Prediction([], data) == Success([]);
    assert Relative(tail[0], data) == Success(0.8);
    assert Prediction(tail[1..], data) == Success([]);
    assert Prediction(tail, data).Success?;
    assert Prediction(tail, data).value == [0.8];
    assert Prediction(tail, data) == Success([0.8]);
    assert Relative(insights[0], data) == Success(1.2);
    assert Prediction(insights, data).Success?;
    assert Prediction(insights, data).value == [1.2, 0.8];
  }
}

=== FILE: outcomes.dfy ===
/** Failure-carrying result types shared by the model.  The Python code signals its
    error cases by raising; here each raise becomes a `Failure` with the error kind. */
module Outcomes {

  datatype Option<+T> = None | Some(value: T)

  /** The exceptions the modelled code can raise. */
  datatype Error =
    | KeyError(symbol: string)         // `symbol_data[s]` for an untracked symbol
    | WindowIndexError(symbol: string) // `window[i]` beyond the number of stored closes
    | ZeroDivisionError(symbol: string)// `window[0] / window[1]` with a zero previous close
    | IndexError                       // `np.where(...)[0][-1]` on an empty selection
    | NoneHasNoReset(symbol: string)   // `pop(s, None).Reset()` for an untracked symbol

  datatype Result<+T> = Success(value: T) | Failure(error: Error)
}

=== FILE: pamr.dfy ===
/** The Passive-Aggressive Mean Reversion update of Li, Zhao, Hoi and Gopalkrishnan
    (Machine Learning 87(2), 2012) as lines 51-66 of MeanReversionPortfolioConstructionModel.py
    compute it: with `x` the predicted price relatives and `bt` the current weights,

      x_bar = mean(x),   d = x - x_bar,   lambda = max(0, (bt . x - eps) / |d|^2)
      (lambda = 0 when |d|^2 = 0),   b = bt - lambda * d,   b_next = projection of b

    onto the unit simplex.  Passive when the current portfolio's predicted return is at
    most `eps`; aggressive otherwise, moving just far enough to bring it down to `eps`. */
module Pamr {
  import opened Vectors
  import opened Simplex
  import opened SimplexOptimality

  /** `assets_mean_dev = x_tilde - x_bar`: the relatives centred on their mean. */
  function MeanDeviation(x: seq<real>): (d: seq<real>)
    requires |x| > 0
    ensures |d| == |x|
    ensures Sum(d) == 0.0
    ensures forall i, j :: 0 <= i < |x| && 0 <= j < |x| ==> x[i] - d[i] == x[j] - d[j]
  {
    ShiftByMeanSumsToZero(x);
    Shift(x, Mean(x))
  }

  /** The two facts above pin the deviation down: any vector that sums to zero and differs
      from `x` by one shared constant is the mean deviation. */
  lemma {:induction false} MeanDeviationUnique(x: seq<real>, e: seq<real>)
    requires |x| > 0 && |e| == |x|
    requires Sum(e) == 0.0
    requires forall i, j :: 0 <= i < |x| && 0 <= j < |x| ==> x[i] - e[i] == x[j] - e[j]
    ensures e == MeanDeviation(x)
  {
    var c := x[0] - e[0];
    assert e == Shift(x, c);
    SumShift(x, c);
    ShiftedTotalIsMean(Sum(x), c, |x| as real);
  }

  lemma ShiftedTotalIsMean(total: real, c: real, n: real)
    requires n > 0.0 && total - n * c == 0.0
    ensures c == total / n
  {
  }

  /** `second_norm`: the squared length of the mean deviation. */
  function DeviationNorm(x: seq<real>): (n: real)
    requires |x| > 0
    ensures n >= 0.0
  {
    SqNormNonNegative(MeanDeviation(x));
    SqNorm(MeanDeviation(x))
  }

  /** `step_size`: zero for a flat prediction, otherwise the predicted excess return over
      `eps` per unit of squared deviation, clamped at zero. */
  function StepSize(bt: seq<real>, x: seq<real>, eps: real): (step: real)
    requires |bt| == |x| > 0
    ensures step >= 0.0
    ensures step > 0.0 <==> DeviationNorm(x) != 0.0 && Dot(bt, x) > eps
    ensures step > 0.0 ==> step * DeviationNorm(x) == Dot(bt, x) - eps
  {
    var norm := DeviationNorm(x);
    if norm == 0.0 then 0.0 else Max0((Dot(bt, x) - eps) / norm)
  }

  /** `b = self.b_t - step_size * assets_mean_dev`, before projection. */
  function Candidate(bt: seq<real>, x: seq<real>, eps: real): (c: seq<real>)
    requires |bt| == |x| > 0
    ensures |c| == |bt|
  {
    Axpy(bt, StepSize(bt, x, eps), MeanDeviation(x))
  }

  /** `b_norm = self.SimplexProjection(b)`: the next weights, a point of the unit simplex. */
  function Update(bt: seq<real>, x: seq<real>, eps: real): (next: seq<real>)
    requires |bt| == |x| > 0
    ensures |next| == |x|
    ensures OnSimplex(next, 1.0)
  {
    SimplexProjection(Candidate(bt, x, eps), 1.0).value
  }

  /** The step moves along a direction that sums to zero, so the candidate keeps the total
      weight of `bt`. */
  lemma {:induction false} CandidateKeepsBudget(bt: seq<real>, x: seq<real>, eps: real)
    requires |bt| == |x| > 0
    ensures Sum(Candidate(bt, x, eps)) == Sum(bt)
  {
    var step, d := StepSize(bt, x, eps), MeanDeviation(x);
    SumAxpy(bt, step, d);
    TimesZero(step, Sum(d));
  }

  lemma TimesZero(a: real, z: real)
    requires z == 0.0
    ensures a * z == 0.0
  {
  }

  /** The mean deviation has the same inner product with `x` as with itself. */
  lemma {:induction false} DeviationDotRelatives(x: seq<real>)
    requires |x| > 0
    ensures Dot(MeanDeviation(x), x) == DeviationNorm(x)
  {
    var d := MeanDeviation(x);
    DotShift(d, x, Mean(x));
    TimesZero(Mean(x), Sum(d));
  }

  /** The aggressive case: a positive step lands the candidate exactly on the threshold,
      its predicted return `b . x` equal to `eps`. */
  lemma {:induction false} CandidateOnThreshold(bt: seq<real>, x: seq<real>, eps: real)
    requires |bt| == |x| > 0
    requires StepSize(bt, x, eps) > 0.0
    ensures Dot(Candidate(bt, x, eps), x) == eps
  {
    var step, d := StepSize(bt, x, eps), MeanDeviation(x);
    DotAxpy(bt, step, d, x);
    DeviationDotRelatives(x);
    LandsOnThreshold(Dot(Candidate(bt, x, eps), x), Dot(bt, x), step, Dot(d, x), DeviationNorm(x), eps);
  }

  lemma LandsOnThreshold(result: real, dot: real, step: real, dx: real, norm: real, eps: real)
    requires result == dot - step * dx && dx == norm
    requires step * norm == dot - eps
    ensures result == eps
  {
  }

  /** The passive case: a portfolio whose predicted return is at most `eps` is kept as it
      is, and a point of the unit simplex comes back unchanged from the projection. */
  lemma {:induction false} PassiveWhenNoLoss(bt: seq<real>, x: seq<real>, eps: real)
    requires |bt| == |x| > 0
    requires Dot(bt, x) <= eps
    ensures StepSize(bt, x, eps) == 0.0
    ensures Candidate(bt, x, eps) == bt
    ensures OnSimplex(bt, 1.0) ==> Update(bt, x, eps) == bt
  {
    ZeroStepKeepsWeights(bt, x, eps);
  }

  lemma {:induction false} ZeroStepKeepsWeights(bt: seq<real>, x: seq<real>, eps: real)
    requires |bt| == |x| > 0
    requires StepSize(bt, x, eps) == 0.0
    ensures Candidate(bt, x, eps) == bt
    ensures OnSimplex(bt, 1.0) ==> Update(bt, x, eps) == bt
  {
    var d := MeanDeviation(x);
    assert forall i :: 0 <= i < |bt| ==> Candidate(bt, x, eps)[i] == bt[i] - 0.0 * d[i];
    if OnSimplex(bt, 1.0) {
      ProjectionIdempotent(bt, 1.0);
    }
  }

  /** Relatives that are all equal carry no signal: the deviation vanishes, the step is
      zero, and the weights stay where they are. */
  lemma {:induction false} FlatRelativesKeepWeights(bt: seq<real>, x: seq<real>, eps: real)
    requires |bt| == |x| > 0
    requires forall i :: 0 <= i < |x| ==> x[i] == x[0]
    ensures DeviationNorm(x) == 0.0
    ensures StepSize(bt, x, eps) == 0.0
    ensures Candidate(bt, x, eps) == bt
  {
    assert x == Const(|x|, x[0]);
    SumConst(|x|, x[0]);
    MeanOfCount(x[0], |x|);
    assert Mean(x) == x[0];
    SqNormOfZero(MeanDeviation(x));
    ZeroStepKeepsWeights(bt, x, eps);
  }

  lemma MeanOfCount(c: real, n: nat)
    requires n > 0
    ensures ((n as real) * c) / (n as real) == c
  {
  }

  /** The update is the point of the unit simplex nearest to the candidate. */
  lemma {:induction false} UpdateIsNearest(bt: seq<real>, x: seq<real>, eps: real, y: seq<real>)
    requires |bt| == |x| > 0
    requires |y| == |x| && OnSimplex(y, 1.0)
    ensures SqDist(Candidate(bt, x, eps), Update(bt, x, eps)) <= SqDist(Candidate(bt, x, eps), y)
  {
    ProjectionNearest(Candidate(bt, x, eps), 1.0, y);
  }

  /** A worked aggressive step: equal weights, relatives 1.2 and 0.8 and `eps = 0.9`.
      The predicted return 1.0 exceeds `eps`, the step is 0.1 / 0.08 = 1.25, and the new
      weights 0.25 and 0.75 predict a return of exactly 0.9. */
  lemma {:induction false} ExampleAggressiveStep()
    ensures StepSize([0.5, 0.5], [1.2, 0.8], 0.9) == 1.25
    ensures Update([0.5, 0.5], [1.2, 0.8], 0.9) == [0.25, 0.75]
  {
    var bt, x := [0.5, 0.5], [1.2, 0.8];
    assert Sum(x) == 2.0 by {
      assert x[1..] == [0.8];
      assert x[1..][1..] == [];
    }
    assert Mean(x) == 1.0;
    var d := MeanDeviation(x);
    assert d == [0.2, -0.2];
    assert SqNorm(d) == 0.08 by {
      assert d[1..] == [-0.2];
      assert d[1..][1..] == [];
    }
    assert Dot(bt, x) == 1.0 by {
      assert bt[1..] == [0.5] && x[1..] == [0.8];
      assert bt[1..][1..] == [] && x[1..][1..] == [];
    }
    var c := Candidate(bt, x, 0.9);
    assert c == [0.25, 0.75];
    assert OnSimplex(c, 1.0) by {
      assert c[1..] == [0.75];
      assert c[1..][1..] == [];
    }
    ProjectionIdempotent(c, 1.0);
  }

  /** The same inputs with `eps = 1`: the predicted return 1.0 does not exceed `eps`, so
      the update is passive and the equal weights stay as they are. */
  lemma {:induction false} ExamplePassiveStep()
    ensures StepSize([0.5, 0.5], [1.2, 0.8], 1.0) == 0.0
    ensures Update([0.5, 0.5], [1.2, 0.8], 1.0) == [0.5, 0.5]
  {
    var bt, x := [0.5, 0.5], [1.2, 0.8];
    assert Dot(bt, x) == 1.0 by {
      assert bt[1..] == [0.5] && x[1..] == [0.8];
      assert bt[1..][1..] == [] && x[1..][1..] == [];
    }
    assert OnSimplex(bt, 1.0) by {
      assert bt[1..] == [0.5];
      assert bt[1..][1..] == [];
    }
    PassiveWhenNoLoss(bt, x, 1.0);
  }
}

=== FILE: rolling_window.dfy ===
/** The bounded history buffer both trackers keep their closes in (QuantConnect's
    `RollingWindow[float](size)`): index 0 is the newest value, adding to a full window
    evicts the oldest, and the window is ready once it is full. */
module RollingWindow {
  import opened Outcomes

  /** `items` are newest first; at most `size` of them are kept. */
  datatype Window = Window(size: nat, items: seq<real>)

  predicate Valid(w: Window)
  {
    w.size >= 1 && |w.items| <= w.size
  }

  function Min(a: nat, b: nat): nat
  {
    if a <= b then a else b
  }

  /** `RollingWindow[float](size)`: a fresh, empty window. */
  function Empty(size: nat): (w: Window)
    requires size >= 1
    ensures Valid(w) && w.size == size && |w.items| == 0
  {
    Window(size, [])
  }

  /** `window.Add(x)`: `x` becomes index 0, every older value moves up one place, and the
      oldest one drops out when the window was already full. */
  function Add(w: Window, x: real): (r: Window)
    requires Valid(w)
    ensures Valid(r) && r.size == w.size
    ensures |r.items| == Min(|w.items| + 1, w.size)
    ensures r.items[0] == x
    ensures forall i :: 0 < i < |r.items| ==> r.items[i] == w.items[i - 1]
  {
    var kept := if |w.items| < w.size then w.items else w.items[..w.size - 1];
    Window(w.size, [x] + kept)
  }

  /** Adds `xs` in order, oldest first, as the history backfill loop does. */
  function AddAll(w: Window, xs: seq<real>): (r: Window)
    requires Valid(w)
    ensures Valid(r) && r.size == w.size
    decreases |xs|
  {
    if |xs| == 0 then w else Add(AddAll(w, xs[..|xs| - 1]), xs[|xs| - 1])
  }

  /** `window.IsReady`: as many values as the window holds. */
  predicate IsReady(w: Window)
  {
    |w.items| == w.size
  }

  /** `window.Reset()`: forget every value, keep the capacity. */
  function Reset(w: Window): (r: Window)
    requires Valid(w)
    ensures Valid(r) && r.size == w.size && |r.items| == 0
    ensures !IsReady(r)
  {
    Window(w.size, [])
  }

  /** `window[i]`: reading past the values held raises an index error. */
  function Get(w: Window, i: nat, symbol: string): (r: Result<real>)
    ensures r.Success? <==> i < |w.items|
    ensures r.Success? ==> r.value == w.items[i]
    ensures r.Failure? ==> r.error == WindowIndexError(symbol)
  {
    if i < |w.items| then Success(w.items[i]) else Failure(WindowIndexError(symbol))
  }

  /** After adding `xs`, the window holds the newest `size` values in all: the last
      values of `xs` newest first, then the values it held before. */
  lemma {:induction false} AddAllContents(w: Window, xs: seq<real>)
    requires Valid(w)
    ensures |AddAll(w, xs).items| == Min(|w.items| + |xs|, w.size)
    ensures forall i :: 0 <= i < |AddAll(w, xs).items| ==>
              AddAll(w, xs).items[i] == if i < |xs| then xs[|xs| - 1 - i] else w.items[i - |xs|]
  {
    if |xs| > 0 {
      var init := xs[..|xs| - 1];
      AddAllContents(w, init);
      var r := AddAll(w, xs);
      assert r == Add(AddAll(w, init), xs[|xs| - 1]);
      forall i | 0 < i < |r.items|
        ensures r.items[i] == if i < |xs| then xs[|xs| - 1 - i] else w.items[i - |xs|]
      {
        assert r.items[i] == AddAll(w, init).items[i - 1];
        if i < |xs| {
          assert init[|init| - 1 - (i - 1)] == xs[|xs| - 1 - i];
        }
      }
    }
  }

  /** An empty window filled with `xs` is ready exactly when `xs` has at least `size`
      values. */
  lemma ReadyAfterFill(size: nat, xs: seq<real>)
    requires size >= 1
    ensures IsReady(AddAll(Empty(size), xs)) <==> |xs| >= size
  {
    AddAllContents(Empty(size), xs);
  }

  /** What `Add` stores is what `Get` reads back: the new value at index 0 and each older
      value one place further on. */
  lemma GetAfterAdd(w: Window, x: real, i: nat, symbol: string)
    requires Valid(w)
    ensures Get(Add(w, x), 0, symbol) == Success(x)
    ensures i + 1 < w.size ==> Get(Add(w, x), i + 1, symbol) == Get(w, i, symbol)
  {
  }
}

=== FILE: simplex.dfy ===
/** Euclidean projection onto the simplex `{w | w >= 0, sum(w) = b}` by the sort-and-threshold
    algorithm of Duchi, Shalev-Shwartz, Singer and Chandra (ICML 2008), as
    `SimplexProjection` in MeanReversionPortfolioConstructionModel.py performs it:
    sort descending, take prefix sums, pick the last index passing the threshold test,
    and clamp `v - theta` at zero. */
module Simplex {
  import opened Outcomes
  import opened Vectors
  import opened Sorting

  /** The prefix sums of `u` shifted by `acc`. */
  function CumSumFrom(u: seq<real>, acc: real): (sv: seq<real>)
    ensures |sv| == |u|
    ensures forall k :: 0 <= k < |u| ==> sv[k] == acc + Sum(u[..k + 1])
  {
    if |u| == 0 then
      []
    else
      var rest := CumSumFrom(u[1..], acc + u[0]);
      PrefixOfTail(u);
      [acc + u[0]] + rest
  }

  lemma PrefixOfTail(u: seq<real>)
    requires |u| > 0
    ensures forall k :: 0 <= k < |u| ==> Sum(u[..k + 1]) == u[0] + Sum(u[1..][..k])
  {
    forall k | 0 <= k < |u|
      ensures Sum(u[..k + 1]) == u[0] + Sum(u[1..][..k])
    {
      assert u[..k + 1][1..] == u[1..][..k];
    }
  }

  /** `np.cumsum(u)`: component `k` is `u[0] + ... + u[k]`. */
  function PrefixSums(u: seq<real>): (sv: seq<real>)
    ensures |sv| == |u|
    ensures forall k :: 0 <= k < |u| ==> sv[k] == Sum(u[..k + 1])
  {
    CumSumFrom(u, 0.0)
  }

  /** The test `u > (sv - b) / np.arange(1, n + 1)` at index `k`. */
  predicate Passes(u: seq<real>, sv: seq<real>, b: real, k: nat)
    requires |sv| == |u| && k < |u|
  {
    u[k] > (sv[k] - b) / ((k + 1) as real)
  }

  /** `np.where(test)[0][-1]` over the indices below `k`: the last index passing the test,
      or `None` when no index passes (where numpy raises an IndexError). */
  function LastPassing(u: seq<real>, sv: seq<real>, b: real, k: nat): (r: Option<nat>)
    requires |sv| == |u| && k <= |u|
    ensures r.Some? ==> r.value < k && Passes(u, sv, b, r.value)
    ensures r.Some? ==> forall j :: r.value < j < k ==> !Passes(u, sv, b, j)
    ensures r.None? ==> forall j :: 0 <= j < k ==> !Passes(u, sv, b, j)
  {
    if k == 0 then None
    else if Passes(u, sv, b, k - 1) then Some(k - 1)
    else LastPassing(u, sv, b, k - 1)
  }

  /** `theta = (sv[rho] - b) / (rho + 1)`. */
  function Theta(sv: seq<real>, rho: nat, b: real): real
    requires rho < |sv|
  {
    (sv[rho] - b) / ((rho + 1) as real)
  }

  /** `SimplexProjection(v, b)`.  It fails exactly when numpy's `[0][-1]` has nothing to
      pick: for an empty `v`, and for `b <= 0`, where no index passes the test. */
  function SimplexProjection(v: seq<real>, b: real): (r: Result<seq<real>>)
    ensures r.Success? <==> |v| > 0 && b > 0.0
    ensures r.Failure? ==> r.error == IndexError
    ensures r.Success? ==> |r.value| == |v| && OnSimplex(r.value, b)
    ensures r.Success? ==> forall i, j :: 0 <= i < |v| && 0 <= j < |v| && v[i] <= v[j] ==> r.value[i] <= r.value[j]
  {
    var u := SortDescending(v);
    var sv := PrefixSums(u);
    ProjectionFacts(v, b);
    match LastPassing(u, sv, b, |u|)
    case None => Failure(IndexError)
    case Some(rho) =>
      var theta := Theta(sv, rho, b);
      ClampMonotone(v, theta);
      Success(Clamp(v, theta))
  }

  /** The threshold a successful projection subtracts from every component. */
  function ProjectionTheta(v: seq<real>, b: real): real
    requires |v| > 0 && b > 0.0
  {
    ProjectionFacts(v, b);
    var u := SortDescending(v);
    var sv := PrefixSums(u);
    Theta(sv, LastPassing(u, sv, b, |u|).value, b)
  }

  /** The bridge between `SimplexProjection` and `ProjectionTheta`: a successful projection
      is the clamp of `v` at that threshold, and its total is `b`. */
  lemma ProjectionIsClamp(v: seq<real>, b: real)
    requires |v| > 0 && b > 0.0
    ensures SimplexProjection(v, b) == Success(Clamp(v, ProjectionTheta(v, b)))
    ensures Sum(Clamp(v, ProjectionTheta(v, b))) == b
  {
  }

  /** The total fixes the projection: whichever threshold `t` brings the clamp of `v` to
      total `b`, that clamp is the projection, however `t` was found. */
  lemma {:induction false} ProjectionUnique(v: seq<real>, b: real)
    requires |v| > 0 && b > 0.0
    ensures forall t :: Sum(Clamp(v, t)) == b ==> Clamp(v, t) == SimplexProjection(v, b).value
  {
    ProjectionIsClamp(v, b);
    forall t | Sum(Clamp(v, t)) == b
      ensures Clamp(v, t) == SimplexProjection(v, b).value
    {
      ClampTotalDetermines(v, t, ProjectionTheta(v, b));
    }
  }

  /* ---------------------------------------------------------------------------------- */
  /* Why the algorithm is right.                                                         */

  /** Arithmetic of the failing test at `rho + 1`. */
  lemma NextIndexFails(s: real, x: real, b: real, k: real)
    requires k > 0.0
    requires x <= (s + x - b) / (k + 1.0)
    ensures x <= (s - b) / k
  {
    assert x * (k + 1.0) <= s + x - b;
    assert x * k <= s - b;
  }

  /** With `rho` the last passing index of sorted `u`, the components up to `rho` lie above
      theta and all later ones at or below it. */
  lemma {:induction false} ThetaSplits(u: seq<real>, sv: seq<real>, b: real, rho: nat)
    requires SortedDesc(u)
    requires |sv| == |u| && rho < |u|
    requires forall k :: 0 <= k < |u| ==> sv[k] == Sum(u[..k + 1])
    requires Passes(u, sv, b, rho)
    requires rho + 1 < |u| ==> !Passes(u, sv, b, rho + 1)
    ensures forall j :: 0 <= j <= rho ==> u[j] > Theta(sv, rho, b)
    ensures forall j :: rho < j < |u| ==> u[j] <= Theta(sv, rho, b)
  {
    if rho + 1 < |u| {
      SumPrefixStep(u, rho + 1);
      assert sv[rho + 1] == sv[rho] + u[rho + 1];
      NextIndexFails(sv[rho], u[rho + 1], b, (rho + 1) as real);
    }
  }

  /** Clamping sorted `u` at theta keeps exactly the first `rho + 1` components, each
      lowered by theta, so the total is `sv[rho] - (rho + 1) * theta = b`. */
  lemma {:induction false} SortedClampTotal(u: seq<real>, sv: seq<real>, b: real, rho: nat)
    requires SortedDesc(u)
    requires |sv| == |u| && rho < |u|
    requires forall k :: 0 <= k < |u| ==> sv[k] == Sum(u[..k + 1])
    requires Passes(u, sv, b, rho)
    requires rho + 1 < |u| ==> !Passes(u, sv, b, rho + 1)
    ensures Sum(Clamp(u, Theta(sv, rho, b))) == b
    ensures b > 0.0
  {
    var theta := Theta(sv, rho, b);
    ThetaSplits(u, sv, b, rho);
    SumClampThreshold(u, rho + 1, theta);
    CountTimesTheta(sv[rho], b, rho + 1);
  }

  lemma CountTimesTheta(s: real, b: real, n: nat)
    requires n > 0
    ensures s - (n as real) * ((s - b) / (n as real)) == b
  {
  }

  /** The facts `SimplexProjection` rests on: an index passes exactly when `v` is non-empty
      and `b` is positive, and clamping at the resulting theta leaves a total of `b`. */
  lemma {:induction false} ProjectionFacts(v: seq<real>, b: real)
    ensures var u := SortDescending(v);
            var sv := PrefixSums(u);
            var r := LastPassing(u, sv, b, |u|);
            && (r.Some? <==> |v| > 0 && b > 0.0)
            && (r.Some? ==> Sum(Clamp(v, Theta(sv, r.value, b))) == b)
  {
    var u := SortDescending(v);
    var sv := PrefixSums(u);
    if |v| > 0 && b > 0.0 {
      FirstIndexPasses(u, sv, b);
    }
    var r := LastPassing(u, sv, b, |u|);
    if r.Some? {
      ClampTotalAtLastPassing(v, u, sv, b, r.value);
    }
  }

  /** With a positive budget the largest component always passes the test. */
  lemma {:induction false} FirstIndexPasses(u: seq<real>, sv: seq<real>, b: real)
    requires |u| > 0 && b > 0.0 && |sv| == |u|
    requires forall k :: 0 <= k < |u| ==> sv[k] == Sum(u[..k + 1])
    ensures Passes(u, sv, b, 0)
  {
    assert u[..1] == [u[0]];
    assert Sum([u[0]]) == u[0] + Sum([]);
    assert sv[0] == u[0];
    assert (sv[0] - b) / 1.0 == u[0] - b;
  }

  lemma {:induction false} ClampTotalAtLastPassing(v: seq<real>, u: seq<real>, sv: seq<real>, b: real, rho: nat)
    requires u == SortDescending(v) && sv == PrefixSums(u)
    requires LastPassing(u, sv, b, |u|) == Some(rho)
    ensures Sum(Clamp(v, Theta(sv, rho, b))) == b && b > 0.0
  {
    SortedClampTotal(u, sv, b, rho);
    SumClampSort(v, Theta(sv, rho, b));
  }

  /** A point already on the simplex is its own projection. */
  lemma {:induction false} ProjectionIdempotent(v: seq<real>, b: real)
    requires b > 0.0 && OnSimplex(v, b)
    ensures SimplexProjection(v, b) == Success(v)
  {
    assert |v| > 0;
    var theta := ProjectionTheta(v, b);
    ProjectionIsClamp(v, b);
    ThetaZeroOnSimplex(v, b, theta);
    ClampAtZero(v);
  }

  /** `[0.5, 0.3, 0.2]` already lies on the unit simplex and is returned unchanged. */
  lemma {:induction false} ExampleOnSimplex()
    ensures SimplexProjection([0.5, 0.3, 0.2], 1.0) == Success([0.5, 0.3, 0.2])
  {
    var v := [0.5, 0.3, 0.2];
    assert Sum(v) == 1.0 by {
      assert v[1..] == [0.3, 0.2] && v[1..][1..] == [0.2] && v[1..][1..][1..] == [];
    }
    ProjectionIdempotent(v, 1.0);
  }

  /** Only theta = 0 leaves the total of a simplex point unchanged. */
  lemma {:induction false} ThetaZeroOnSimplex(v: seq<real>, b: real, theta: real)
    requires b > 0.0 && |v| > 0 && OnSimplex(v, b)
    requires Sum(Clamp(v, theta)) == Sum(v)
    ensures theta == 0.0
  {
    if theta > 0.0 {
      ClampShrinks(v, theta);
    }
    if theta < 0.0 {
      NegativeTimesCount(theta, |v|);
      ClampGrows(v, theta);
    }
  }

  lemma NegativeTimesCount(theta: real, n: nat)
    requires theta < 0.0 && n > 0
    ensures (n as real) * theta < 0.0
  {
  }
}

=== FILE: simplex_optimality.dfy ===
/** Optimality of the simplex projection: the point it returns is the closest point of
    the simplex to its input, the `arg min || v - w ||^2` its documentation promises. */
module SimplexOptimality {
  import opened Vectors
  import opened Simplex

  lemma DropNonNegative(total: real, part: real, rest: real, cross: real)
    requires total == part + rest + 2.0 * cross
    requires rest >= 0.0 && cross >= 0.0
    ensures part <= total
  {
  }

  /** The projection minimises the Euclidean distance to `v` over the simplex of total `b`,
      the `arg min || v - w ||^2` its documentation promises. */
  lemma {:induction false} ProjectionNearest(v: seq<real>, b: real, y: seq<real>)
    requires |v| > 0 && b > 0.0
    requires |y| == |v| && OnSimplex(y, b)
    ensures SqDist(v, SimplexProjection(v, b).value) <= SqDist(v, y)
  {
    ProjectionIsClamp(v, b);
    ClampNearest(v, ProjectionTheta(v, b), y);
  }

  /** Clamping at a theta that yields the total of `y` gives a point at least as close
      to `v` as `y` is (the Karush-Kuhn-Tucker conditions of the projection). */
  lemma {:induction false} ClampNearest(v: seq<real>, theta: real, y: seq<real>)
    requires |y| == |v| && NonNegative(y)
    requires Sum(Clamp(v, theta)) == Sum(y)
    ensures SqDist(v, Clamp(v, theta)) <= SqDist(v, y)
  {
    var w := Clamp(v, theta);
    ThreePoint(v, w, y);
    CrossNonNegative(v, theta, y);
    SqDistNonNegative(w, y);
    DropNonNegative(SqDist(v, y), SqDist(v, w), SqDist(w, y), Cross(v, w, y));
  }

  lemma {:induction false} CrossNonNegative(v: seq<real>, theta: real, y: seq<real>)
    requires |y| == |v| && NonNegative(y)
    requires Sum(Clamp(v, theta)) == Sum(y)
    ensures Cross(v, Clamp(v, theta), y) >= 0.0
  {
    CrossBound(v, theta, y, 0.0);
  }
}

=== FILE: sorting.dfy ===
/** Sorting a vector of reals into descending order, the `np.sort(v)[::-1]` step of the
    simplex projection.  Insertion sort over `seq`, specified by sortedness and by
    being a permutation of its input. */
module Sorting {
  import opened Vectors

  predicate SortedDesc(s: seq<real>)
  {
    forall i, j :: 0 <= i < j < |s| ==> s[i] >= s[j]
  }

  /** Inserts `x` into a descending sequence, keeping it descending. */
  function Insert(x: real, s: seq<real>): (r: seq<real>)
    requires SortedDesc(s)
    ensures |r| == |s| + 1
    ensures multiset(r) == multiset(s) + multiset{x}
    ensures SortedDesc(r)
    ensures r[0] == x || (|s| > 0 && r[0] == s[0])
  {
    if |s| == 0 || x >= s[0] then
      [x] + s
    else
      var rest := Insert(x, s[1..]);
      assert s == [s[0]] + s[1..];
      [s[0]] + rest
  }

  /** `v` in descending order. */
  function SortDescending(v: seq<real>): (u: seq<real>)
    ensures |u| == |v|
    ensures multiset(u) == multiset(v)
    ensures SortedDesc(u)
  {
    if |v| == 0 then
      []
    else
      assert v == [v[0]] + v[1..];
      Insert(v[0], SortDescending(v[1..]))
  }

  /** The clamped total of a sequence is its clamped head plus the clamped total of the rest. */
  lemma SumClampCons(a: real, s: seq<real>, theta: real)
    ensures Sum(Clamp([a] + s, theta)) == Max0(a - theta) + Sum(Clamp(s, theta))
  {
    assert Clamp([a] + s, theta) == [Max0(a - theta)] + Clamp(s, theta);
  }

  /** Clamping commutes with insertion as far as the sum is concerned. */
  lemma {:induction false} SumClampInsert(x: real, s: seq<real>, theta: real)
    requires SortedDesc(s)
    ensures Sum(Clamp(Insert(x, s), theta)) == Max0(x - theta) + Sum(Clamp(s, theta))
  {
    if |s| == 0 || x >= s[0] {
      assert Insert(x, s) == [x] + s;
      SumClampCons(x, s, theta);
    } else {
      var rest := Insert(x, s[1..]);
      assert Insert(x, s) == [s[0]] + rest;
      SumClampCons(s[0], rest, theta);
      SumClampInsert(x, s[1..], theta);
      assert s == [s[0]] + s[1..];
      SumClampCons(s[0], s[1..], theta);
    }
  }

  /** Sorting does not change the total of the clamped components. */
  lemma {:induction false} SumClampSort(v: seq<real>, theta: real)
    ensures Sum(Clamp(SortDescending(v), theta)) == Sum(Clamp(v, theta))
  {
    if |v| > 0 {
      var t := SortDescending(v[1..]);
      assert SortDescending(v) == Insert(v[0], t);
      SumClampSort(v[1..], theta);
      SumClampInsert(v[0], t, theta);
      assert v == [v[0]] + v[1..];
      SumClampCons(v[0], v[1..], theta);
    }
  }
}

=== FILE: universe.dfy ===
/** The `symbol_data` bookkeeping both portfolio models perform in `OnSecuritiesChanged`:
    pop and reset the tracker of every removed security, then create a tracker for every
    added security that has none.  Generic in the tracker type; `make` stands for the
    `SymbolData(...)` constructor of the model at hand. */
module Universe {
  import opened Outcomes

  predicate Distinct(s: seq<string>)
  {
    forall i, j :: 0 <= i < j < |s| ==> s[i] != s[j]
  }

  /** The removal loop.  `symbol_data.pop(symbol, None)` yields `None` for a symbol that is
      not tracked, and the following `.Reset()` then raises; so does a symbol listed twice,
      whose second pop finds nothing. */
  function RemoveAll<T>(data: map<string, T>, removed: seq<string>): (r: Result<map<string, T>>)
    ensures r.Success? <==> Distinct(removed) && forall i :: 0 <= i < |removed| ==> removed[i] in data
    ensures r.Failure? ==> exists i :: 0 <= i < |removed| && r.error == NoneHasNoReset(removed[i])
    ensures r.Success? ==> r.value.Keys == data.Keys - set i | 0 <= i < |removed| :: removed[i]
    ensures r.Success? ==> forall k :: k in r.value ==> r.value[k] == data[k]
  {
    if |removed| == 0 then
      Success(data)
    else if removed[0] !in data then
      Failure(NoneHasNoReset(removed[0]))
    else
      var rest := RemoveAll(map k | k in data && k != removed[0] :: data[k], removed[1..]);
      assert forall i :: 0 < i < |removed| ==> removed[i] == removed[1..][i - 1];
      rest
  }

  /** The creation loop: a symbol that is already tracked keeps its tracker. */
  function AddMissing<T>(data: map<string, T>, added: seq<string>, make: string -> T): (r: map<string, T>)
    ensures r.Keys == data.Keys + set i | 0 <= i < |added| :: added[i]
    ensures forall k :: k in data ==> r[k] == data[k]
    ensures forall k :: k in r && k !in data ==> r[k] == make(k)
    decreases |added|
  {
    if |added| == 0 then
      data
    else
      var next := if added[0] in data then data else data[added[0] := make(added[0])];
      var r := AddMissing(next, added[1..], make);
      assert forall i :: 0 < i < |added| ==> added[i] == added[1..][i - 1];
      r
  }

  /** `OnSecuritiesChanged`: removals first, then additions.  A symbol both removed and
      added ends up with a fresh tracker; every symbol neither removed nor added keeps its
      tracker untouched. */
  function OnSecuritiesChanged<T>(data: map<string, T>, removed: seq<string>, added: seq<string>,
                                  make: string -> T): (r: Result<map<string, T>>)
    ensures r.Success? <==> Distinct(removed) && forall i :: 0 <= i < |removed| ==> removed[i] in data
    ensures r.Success? ==>
              r.value.Keys == (data.Keys - set i | 0 <= i < |removed| :: removed[i]) + (set i | 0 <= i < |added| :: added[i])
    ensures r.Success? ==> forall i :: 0 <= i < |removed| && removed[i] !in added ==> removed[i] !in r.value
    ensures r.Success? ==> forall i :: 0 <= i < |added| ==> added[i] in r.value
    ensures r.Success? ==> forall k :: k in data && k !in removed ==> k in r.value && r.value[k] == data[k]
    ensures r.Success? ==> forall k :: k in r.value && (k !in data || k in removed) ==> r.value[k] == make(k)
  {
    match RemoveAll(data, removed)
    case Failure(e) => Failure(e)
    case Success(kept) => Success(AddMissing(kept, added, make))
  }

  /** Adding the same securities a second time changes nothing. */
  lemma AddMissingIdempotent<T>(data: map<string, T>, added: seq<string>, make: string -> T)
    ensures AddMissing(AddMissing(data, added, make), added, make) == AddMissing(data, added, make)
  {
    var once := AddMissing(data, added, make);
    var twice := AddMissing(once, added, make);
    assert twice.Keys == once.Keys;
  }

  /** Removing freshly added securities restores the map they were added to. */
  lemma RemoveUndoesAdd<T>(data: map<string, T>, added: seq<string>, make: string -> T)
    requires Distinct(added)
    requires forall i :: 0 <= i < |added| ==> added[i] !in data
    ensures RemoveAll(AddMissing(data, added, make), added) == Success(data)
  {
    var a := AddMissing(data, added, make);
    var r := RemoveAll(a, added);
    var s := set i | 0 <= i < |added| :: added[i];
    assert r.value.Keys == a.Keys - s;
    assert forall k :: k in s ==> k !in data;
    assert r.value.Keys == data.Keys;
    forall k | k in r.value
      ensures r.value[k] == data[k]
    {
      assert r.value[k] == a[k];
    }
    assert r.value == data;
  }
}

=== FILE: vectors.dfy ===
/** Vectors of reals (`seq<real>`) and the few operations of numpy the model needs:
    sums, dot products, the mean, shifting by a scalar, `b - step * d`, and clamping
    at zero.  Arithmetic is exact; floating point rounding is not modelled. */
module Vectors {

  /** Sum of the components, `np.sum`. */
  function Sum(s: seq<real>): real
  {
    if |s| == 0 then 0.0 else s[0] + Sum(s[1..])
  }

  /** Inner product, `np.dot`. */
  function Dot(a: seq<real>, b: seq<real>): real
    requires |a| == |b|
  {
    if |a| == 0 then 0.0 else a[0] * b[0] + Dot(a[1..], b[1..])
  }

  /** Squared Euclidean norm, `np.linalg.norm(a) ** 2` without the square root. */
  function SqNorm(a: seq<real>): real
  {
    Dot(a, a)
  }

  /** Squared Euclidean distance between two vectors of one length. */
  function SqDist(a: seq<real>, c: seq<real>): real
    requires |a| == |c|
  {
    if |a| == 0 then 0.0 else (a[0] - c[0]) * (a[0] - c[0]) + SqDist(a[1..], c[1..])
  }

  /** Arithmetic mean, `x.mean()`. */
  function Mean(x: seq<real>): real
    requires |x| > 0
  {
    Sum(x) / (|x| as real)
  }

  /** `x - c`, a scalar subtracted from every component. */
  function Shift(x: seq<real>, c: real): seq<real>
  {
    seq(|x|, i requires 0 <= i < |x| => x[i] - c)
  }

  /** `b - step * d`. */
  function Axpy(b: seq<real>, step: real, d: seq<real>): seq<real>
    requires |b| == |d|
  {
    seq(|b|, i requires 0 <= i < |b| => b[i] - step * d[i])
  }

  /** The vector of length `n` whose components all equal `c`. */
  function Const(n: nat, c: real): seq<real>
  {
    seq(n, i requires 0 <= i < n => c)
  }

  /** `np.ones(m) * (1/m)`. */
  function Uniform(m: nat): seq<real>
    requires m > 0
  {
    Const(m, 1.0 / (m as real))
  }

  function Max0(a: real): real
  {
    if a > 0.0 then a else 0.0
  }

  /** `w = v - theta; w[w < 0] = 0`. */
  function Clamp(v: seq<real>, theta: real): seq<real>
  {
    seq(|v|, i requires 0 <= i < |v| => Max0(v[i] - theta))
  }

  predicate NonNegative(v: seq<real>)
  {
    forall i :: 0 <= i < |v| ==> v[i] >= 0.0
  }

  /** `v` lies on the simplex of total `b`: non-negative components summing to `b`. */
  predicate OnSimplex(v: seq<real>, b: real)
  {
    NonNegative(v) && Sum(v) == b
  }

  lemma {:induction false} SumConcat(a: seq<real>, b: seq<real>)
    ensures Sum(a + b) == Sum(a) + Sum(b)
  {
    if |a| == 0 {
      assert a + b == b;
    } else {
      assert (a + b)[1..] == a[1..] + b;
      SumConcat(a[1..], b);
    }
  }

  /** The sum of a prefix grows by the next component. */
  lemma SumPrefixStep(s: seq<real>, k: nat)
    requires k < |s|
    ensures Sum(s[..k + 1]) == Sum(s[..k]) + s[k]
  {
    assert s[..k + 1] == s[..k] + [s[k]];
    SumConcat(s[..k], [s[k]]);
  }

  lemma {:induction false} SumConst(n: nat, c: real)
    ensures Sum(Const(n, c)) == (n as real) * c
  {
    if n > 0 {
      assert Const(n, c)[1..] == Const(n - 1, c);
      SumConst(n - 1, c);
    }
  }

  /** The uniform vector lies on the unit simplex. */
  lemma UniformOnSimplex(m: nat)
    requires m > 0
    ensures |Uniform(m)| == m
    ensures OnSimplex(Uniform(m), 1.0)
  {
    SumConst(m, 1.0 / (m as real));
  }

  lemma {:induction false} SumShift(x: seq<real>, c: real)
    ensures Sum(Shift(x, c)) == Sum(x) - (|x| as real) * c
  {
    if |x| > 0 {
      assert Shift(x, c)[1..] == Shift(x[1..], c);
      SumShift(x[1..], c);
      assert (|x| as real) * c == c + ((|x| - 1) as real) * c;
    }
  }

  /** Subtracting the mean leaves a vector that sums to zero. */
  lemma ShiftByMeanSumsToZero(x: seq<real>)
    requires |x| > 0
    ensures Sum(Shift(x, Mean(x))) == 0.0
  {
    SumShift(x, Mean(x));
  }

  lemma AxpyTail(b: seq<real>, step: real, d: seq<real>)
    requires 0 < |b| == |d|
    ensures Axpy(b, step, d)[1..] == Axpy(b[1..], step, d[1..])
  {
    forall i | 0 <= i < |b| - 1
      ensures Axpy(b, step, d)[1..][i] == Axpy(b[1..], step, d[1..])[i]
    {
      assert b[1..][i] == b[i + 1] && d[1..][i] == d[i + 1];
    }
  }

  lemma {:induction false} SumAxpy(b: seq<real>, step: real, d: seq<real>)
    requires |b| == |d|
    ensures Sum(Axpy(b, step, d)) == Sum(b) - step * Sum(d)
  {
    if |b| > 0 {
      AxpyTail(b, step, d);
      SumAxpy(b[1..], step, d[1..]);
    }
  }

  lemma {:induction false} DotAxpy(b: seq<real>, step: real, d: seq<real>, x: seq<real>)
    requires |b| == |d| == |x|
    ensures Dot(Axpy(b, step, d), x) == Dot(b, x) - step * Dot(d, x)
  {
    if |b| > 0 {
      AxpyTail(b, step, d);
      DotAxpy(b[1..], step, d[1..], x[1..]);
      assert (b[0] - step * d[0]) * x[0] == b[0] * x[0] - step * (d[0] * x[0]);
    }
  }

  lemma {:induction false} DotShift(d: seq<real>, x: seq<real>, c: real)
    requires |d| == |x|
    ensures Dot(d, x) == Dot(d, Shift(x, c)) + c * Sum(d)
  {
    if |d| > 0 {
      assert Shift(x, c)[1..] == Shift(x[1..], c);
      DotShift(d[1..], x[1..], c);
      assert d[0] * x[0] == d[0] * (x[0] - c) + c * d[0];
    }
  }

  lemma {:induction false} SqNormNonNegative(a: seq<real>)
    ensures SqNorm(a) >= 0.0
  {
    if |a| > 0 {
      SqNormNonNegative(a[1..]);
      assert a[0] * a[0] >= 0.0;
    }
  }

  /** The zero vector has squared norm zero. */
  lemma {:induction false} SqNormOfZero(a: seq<real>)
    requires forall i :: 0 <= i < |a| ==> a[i] == 0.0
    ensures SqNorm(a) == 0.0
  {
    if |a| > 0 {
      SqNormOfZero(a[1..]);
    }
  }

  lemma {:induction false} SqDistNonNegative(a: seq<real>, c: seq<real>)
    requires |a| == |c|
    ensures SqDist(a, c) >= 0.0
  {
    if |a| > 0 {
      SqDistNonNegative(a[1..], c[1..]);
      assert (a[0] - c[0]) * (a[0] - c[0]) >= 0.0;
    }
  }

  /** A sum of non-negative components with at least one positive component is positive. */
  lemma {:induction false} SumPositive(s: seq<real>)
    requires |s| > 0
    requires forall i :: 0 <= i < |s| ==> s[i] > 0.0
    ensures Sum(s) > 0.0
  {
    if |s| > 1 {
      SumPositive(s[1..]);
    }
  }

  /* Clamping: `max(v - theta, 0)` componentwise. */

  /** Clamping is non-negative and keeps the order of the components. */
  lemma ClampMonotone(v: seq<real>, theta: real)
    ensures NonNegative(Clamp(v, theta))
    ensures forall i, j :: 0 <= i < |v| && 0 <= j < |v| && v[i] <= v[j] ==> Clamp(v, theta)[i] <= Clamp(v, theta)[j]
  {
  }

  lemma {:induction false} SumClampAbove(p: seq<real>, theta: real)
    requires forall i :: 0 <= i < |p| ==> p[i] >= theta
    ensures Sum(Clamp(p, theta)) == Sum(p) - (|p| as real) * theta
  {
    if |p| > 0 {
      assert Clamp(p, theta)[1..] == Clamp(p[1..], theta);
      SumClampAbove(p[1..], theta);
      assert (|p| as real) * theta == theta + ((|p| - 1) as real) * theta;
    }
  }

  lemma {:induction false} SumClampBelow(q: seq<real>, theta: real)
    requires forall i :: 0 <= i < |q| ==> q[i] <= theta
    ensures Sum(Clamp(q, theta)) == 0.0
  {
    if |q| > 0 {
      assert Clamp(q, theta)[1..] == Clamp(q[1..], theta);
      SumClampBelow(q[1..], theta);
    }
  }

  /** Clamping a prefix of components above theta and a suffix at or below it: the total
      is the prefix total lowered by theta per kept component, and positive. */
  lemma {:induction false} SumClampThreshold(u: seq<real>, k: nat, theta: real)
    requires 0 < k <= |u|
    requires forall j :: 0 <= j < k ==> u[j] > theta
    requires forall j :: k <= j < |u| ==> u[j] <= theta
    ensures Sum(Clamp(u, theta)) == Sum(u[..k]) - (k as real) * theta
    ensures Sum(Clamp(u, theta)) > 0.0
  {
    var head, tail := u[..k], u[k..];
    ClampSplit(u, k, theta);
    SumConcat(Clamp(head, theta), Clamp(tail, theta));
    SumClampAbove(head, theta);
    SumClampBelow(tail, theta);
    SumPositive(Clamp(head, theta));
  }

  lemma ClampTail(v: seq<real>, theta: real)
    requires |v| > 0
    ensures Clamp(v, theta)[0] == Max0(v[0] - theta)
    ensures Clamp(v, theta)[1..] == Clamp(v[1..], theta)
  {
  }

  lemma ClampSplit(u: seq<real>, k: nat, theta: real)
    requires k <= |u|
    ensures Clamp(u, theta) == Clamp(u[..k], theta) + Clamp(u[k..], theta)
  {
  }

  lemma {:induction false} ClampShrinks(v: seq<real>, theta: real)
    requires NonNegative(v) && theta > 0.0
    ensures Sum(Clamp(v, theta)) <= Sum(v)
    ensures Sum(v) > 0.0 ==> Sum(Clamp(v, theta)) < Sum(v)
  {
    if |v| > 0 {
      assert Clamp(v, theta)[1..] == Clamp(v[1..], theta);
      ClampShrinks(v[1..], theta);
    }
  }

  lemma {:induction false} ClampGrows(v: seq<real>, theta: real)
    ensures Sum(Clamp(v, theta)) >= Sum(v) - (|v| as real) * theta
  {
    if |v| > 0 {
      assert Clamp(v, theta)[1..] == Clamp(v[1..], theta);
      ClampGrows(v[1..], theta);
      assert (|v| as real) * theta == theta + ((|v| - 1) as real) * theta;
    }
  }

  lemma {:induction false} SumDominated(a: seq<real>, c: seq<real>)
    requires |a| == |c|
    requires forall i :: 0 <= i < |a| ==> a[i] >= c[i]
    ensures Sum(a) >= Sum(c)
  {
    if |a| > 0 {
      SumDominated(a[1..], c[1..]);
    }
  }

  /** A vector that dominates another componentwise and has the same total equals it. */
  lemma {:induction false} DominatedEqualTotal(a: seq<real>, c: seq<real>)
    requires |a| == |c|
    requires forall i :: 0 <= i < |a| ==> a[i] >= c[i]
    requires Sum(a) == Sum(c)
    ensures a == c
  {
    if |a| > 0 {
      SumDominated(a[1..], c[1..]);
      DominatedEqualTotal(a[1..], c[1..]);
      assert a == [a[0]] + a[1..] && c == [c[0]] + c[1..];
    }
  }

  /** The total alone fixes a clamp of `v`: two thresholds whose clamps have the same
      total give the same clamped vector. */
  lemma {:induction false} ClampTotalDetermines(v: seq<real>, s: real, t: real)
    requires Sum(Clamp(v, s)) == Sum(Clamp(v, t))
    ensures Clamp(v, s) == Clamp(v, t)
  {
    if s <= t {
      DominatedEqualTotal(Clamp(v, s), Clamp(v, t));
    } else {
      DominatedEqualTotal(Clamp(v, t), Clamp(v, s));
    }
  }

  /* The cross term of the three-point identity. */

  /** `sum_i (a_i - c_i) * (c_i - d_i)`. */
  function Cross(a: seq<real>, c: seq<real>, d: seq<real>): real
    requires |a| == |c| == |d|
  {
    if |a| == 0 then 0.0 else (a[0] - c[0]) * (c[0] - d[0]) + Cross(a[1..], c[1..], d[1..])
  }

  lemma CrossCons(a: seq<real>, c: seq<real>, d: seq<real>)
    requires |a| == |c| == |d| > 0
    ensures Cross(a, c, d) == (a[0] - c[0]) * (c[0] - d[0]) + Cross(a[1..], c[1..], d[1..])
  {
  }

  lemma SquareOfSum(p: real, q: real)
    ensures (p + q) * (p + q) == p * p + q * q + 2.0 * (p * q)
  {
  }

  /** `|a - d|^2 = |a - c|^2 + |c - d|^2 + 2 <a - c, c - d>`. */
  lemma {:induction false} ThreePoint(a: seq<real>, c: seq<real>, d: seq<real>)
    requires |a| == |c| == |d|
    ensures SqDist(a, d) == SqDist(a, c) + SqDist(c, d) + 2.0 * Cross(a, c, d)
  {
    if |a| > 0 {
      ThreePoint(a[1..], c[1..], d[1..]);
      SquareOfSum(a[0] - c[0], c[0] - d[0]);
      assert a[0] - d[0] == (a[0] - c[0]) + (c[0] - d[0]);
    }
  }

  lemma MulNonNegative(p: real, q: real)
    requires p >= 0.0 && q >= 0.0
    ensures p * q >= 0.0
  {
  }

  /** One component of the optimality condition, with `w = max(x - theta, 0)`. */
  lemma CrossTerm(x: real, theta: real, y: real, w: real)
    requires y >= 0.0 && w == Max0(x - theta)
    ensures (x - w) * (w - y) >= theta * (w - y)
  {
    if x - theta <= 0.0 {
      MulNonNegative(theta - x, y);
      assert (x - 0.0) * (0.0 - y) == theta * (0.0 - y) + (theta - x) * y;
    }
  }

  lemma CombineBounds(c0: real, c: real, g0: real, g: real, gap: real, theta: real)
    requires c0 >= theta * g0 && c >= theta * g && gap == g0 + g
    ensures c0 + c >= theta * gap
  {
  }

  /** The optimality condition summed over all components, with `gap` the difference of
      the totals of the clamped vector and of `y`. */
  lemma {:induction false} CrossBound(v: seq<real>, theta: real, y: seq<real>, gap: real)
    requires |y| == |v| && NonNegative(y)
    requires gap == Sum(Clamp(v, theta)) - Sum(y)
    ensures Cross(v, Clamp(v, theta), y) >= theta * gap
  {
    if |v| > 0 {
      var w := Clamp(v, theta);
      ClampTail(v, theta);
      var restGap := Sum(Clamp(v[1..], theta)) - Sum(y[1..]);
      assert gap == (w[0] - y[0]) + restGap;
      CrossCons(v, w, y);
      CrossBound(v[1..], theta, y[1..], restGap);
      CrossTerm(v[0], theta, y[0], w[0]);
      CombineBounds((v[0] - w[0]) * (w[0] - y[0]), Cross(v[1..], w[1..], y[1..]),
                    w[0] - y[0], restGap, gap, theta);
    }
  }

  lemma ClampAtZero(v: seq<real>)
    requires NonNegative(v)
    ensures Clamp(v, 0.0) == v
  {
  }
}
